=== FILE: README.md ===
# Sliding-window rate limiter of the document-extraction gateway, in Dafny

This project models the request-admission core of the gateway in `main.go`:
the per-client sliding-window rate limiter (`rateLimiter`, `newRateLimiter`,
`allow`), the derivation of the client key from request metadata
(`clientKey`), and the middleware that answers preflight requests, rejects
over-quota requests with 429 and `Retry-After`, and forwards the rest
(`Middleware`). Everything is a pure function over immutable values.

- Instants and durations are Go `time` values in nanoseconds, modelled as
  unbounded `int`. `time.Now()` becomes an explicit `now` parameter.
- The limiter state is `RateLimiter(hits: map<string, seq<int>>, limit, window)`.
  One `allow` call takes the mutex (main.go:51) before it reads `hits`
  and keeps it until it returns, so its state update is one transition.
  Concurrent callers see some sequence of whole updates, which `Traces.Run`
  replays. The call reads its instant and computes the cutoff before taking
  the mutex (main.go:49-50). So the order of the updates need not be the order
  of the instants, and `Traces.Run` accepts any order.
- `Admit` is the decision for one key's timestamp sequence. `Allow` applies
  it to the map and leaves every other key alone.
- `net.SplitHostPort` becomes a parameter `splitHost: string -> Option<string>`.
  It yields the host part, or `None` where Go returns an error.
- Calling the wrapped handler `next` is the response value `Forward`.

Modules, one file each: `Wrappers` (Option), `Window` (timestamp sequences
and pruning), `RateLimit` (state, `allow`, invariants), `Traces` (sequences of
calls), `Decimal` (`%d` formatting), `Keys` (`clientKey`), `Gateway`
(`Middleware`).

Where the code departs from the documented intent of the limiter, the model
follows the code:
- The intent: a limiter with `limit == 0` denies every request, with the
  whole window as retry delay. The code panics instead (see Findings).
- The intent: `Retry-After` is the retry delay rounded to whole seconds. The
  code truncates it toward zero (`int(retry.Seconds())`).
- The intent: a negative retry delay is clamped to zero. The code does not
  clamp. Its delay is never negative anyway, because the oldest surviving
  instant is at or after the cutoff. The delay can exceed the window in two
  cases. One is a clock that goes backwards. The other is a later clock
  reading that takes the mutex first (`Traces.ClockReadBeforeLock`).

## Model

| member | source | states |
|---|---|---|
| Window.StaleCount | main.go:56-59 | the number of instants the pruning loop skips: every skipped instant is strictly before the cutoff, and the next one (if any) is not |
| Window.ScanStale | main.go:56-62 | the forward scan of `allow` stops at the first instant not before the cutoff, and slicing there gives the pruned sequence |
| Window.LongestStalePrefix | main.go:56-62 | pruning removes exactly the longest prefix of instants strictly before the cutoff; no other split point qualifies |
| Window.SortedPruneKeepsWindow | main.go:50-62 | on a chronological sequence, pruning keeps exactly the instants at or after `now - window`; an instant equal to the cutoff is kept and still counts |
| Window.PruneKeepsRecent | main.go:56-62 | a sequence with nothing before the cutoff is left unchanged |
| RateLimit.NewRateLimiter | main.go:44-46 | a new limiter has no history for any key and keeps the given limit and window |
| RateLimit.AllowAsWritten | main.go:48-72 | `allow` as written panics exactly when the limit is not positive and nothing survives pruning |
| RateLimit.Admit | main.go:54-71 | the decision for one key: admitted iff fewer than `limit` instants survive pruning. Admission stores the survivors plus `now` with retry 0. Denial stores the survivors alone, with retry `window - (now - oldest survivor)` |
| RateLimit.Allow | main.go:48-72 | only the entry of the requested key is written, and it is always written. Every other key, `limit` and `window` are unchanged. The verdict and the new entry are those of `Admit` |
| RateLimit.AllowMatchesSource | main.go:63-71 | for every positive limit the repaired `Allow` gives exactly the verdict and state of the code as written |
| RateLimit.ZeroLimitPanics | main.go:63-65 | with `limit == 0` the first request of any key reaches the panic |
| RateLimit.ProductionNeverPanics | main.go:310 | the limiter built by `main` (50 per 3 hours) never reaches the panic, whatever its history |
| RateLimit.NewLimiterInv | main.go:44-46 | a new limiter satisfies the state invariant for any clock |
| RateLimit.AdmitPreservesKeyInv | main.go:57-71 | with non-decreasing instants, one decision keeps a key's sequence sorted, at most `limit` long, and not after the newest instant |
| RateLimit.AllowPreservesInv | main.go:54-71 | the same invariant holds for every key of the map after an `allow` call |
| RateLimit.DeniedRetryNonNegative | main.go:63-67 | for any history, even one out of clock order, a denial under a positive limit never advertises a negative retry delay, because the oldest surviving instant is at or after the cutoff |
| RateLimit.RetryWithinWindow | main.go:63-67 | under the invariant with a positive limit, a denial's retry delay lies in `[0, window]` |
| RateLimit.RetryBoundary | main.go:57-67 | after a denial at `t` with delay `retry`, the key's next request at `t2 >= t` is admitted iff `t2 > t + retry` |
| RateLimit.IdleKeyForgets | main.go:56-71 | a key whose instants are all older than the window forgets them: it is admitted and keeps only `now` |
| RateLimit.NonPositiveLimitDenies | main.go:63-67 | in the repaired model, a limit of zero or less denies every request and stores nothing new. With no surviving history the retry delay is the whole window |
| RateLimit.EmptyLimiterDeniesAll | main.go:63-67 | a repaired limiter with a limit of zero or less and no stored history denies each call with the whole window as retry delay, and still stores nothing afterwards. So from `newRateLimiter` every call is denied that way |
| Traces.Run | main.go:48-72 | replaying a sequence of calls yields one verdict per call and never changes `limit` or `window` |
| Traces.RunPreservesInv | main.go:48-72 | along any chronological sequence of calls the invariant holds at the end, with the clock at the last call's instant |
| Traces.KeysAreIsolated | main.go:54-70 | in any interleaving, the verdicts one key receives equal those of replaying its own calls against its own history; other keys never matter |
| Traces.BurstWithinWindow | main.go:57-71 | start from no surviving history, with no call later than one window after the first call to take the mutex; the calls may lock in any order. Then the first `limit` calls to lock are admitted and the rest are denied. Each denial waits until the first call leaves the window. So of simultaneous calls exactly `limit` pass, whatever the interleaving |
| Traces.ClockReadBeforeLock | main.go:49-51 | two calls that take the mutex against the order of their clock readings. With limit 1 and a 10 s window the second is told to wait 15 s, more than the window. With limit 2 the stored history is no longer chronological |
| Traces.ScenarioTwoPerTenSeconds | main.go:48-72 | limit 2, window 10 s: calls at 0, 1, 2, 11 s are admitted, admitted, denied with 8 s, admitted |
| Decimal.FormatInt | main.go:97-100 | `%d` output is non-empty and starts with a minus sign exactly for negative values. It is all digits otherwise, with no leading zero except for zero itself |
| Decimal.FormatIntRoundTrip | main.go:97-100 | a client parsing a `%d` field gets the original integer back |
| Keys.TrimSpace | main.go:77 | the result is `s` with white-space runs removed from both ends, and neither of its ends is white space |
| Keys.TrimOfUnique | main.go:77 | trimming has one answer: two trimmed strings that both trim `s` are equal |
| Keys.TrimSpaceOfPadded | main.go:77 | trimming white space around a trimmed core gives the core |
| Keys.FirstField | main.go:76-77 | the first element of `strings.Split(s, ",")`: a comma-free prefix of `s` that ends at a comma or at the end |
| Keys.FirstFieldUnique | main.go:76-77 | any comma-free prefix ending at a comma or at the end is that first element |
| Keys.ClientKey | main.go:74-84 | with a forwarded-for header, the key is the trimmed first entry, which has no comma. Otherwise it is the host `SplitHostPort` yields, or the raw remote address when that fails |
| Keys.ForwardedKeyIsClientChosen | main.go:75-77 | any non-empty comma-free text without white space at its ends, written first in `X-Forwarded-For`, becomes the key whatever the peer address |
| Gateway.TruncSeconds | main.go:97 | `int(d.Seconds())` is the quotient by one second truncated toward zero, for either sign |
| Gateway.Middleware | main.go:86-104 | OPTIONS is answered 204 with the CORS headers and leaves the limiter untouched. Other requests consume one `Allow` on their client key. They are forwarded iff admitted, and otherwise get the 429 response |
| Gateway.DenyResponse | main.go:96-100 | the 429 reply keeps the three CORS headers next to `Content-Type: application/json`, its `Retry-After` header is the retry delay formatted as `%d` whole seconds, and its body reports the limiter's limit and its window in whole seconds |
| Gateway.RetryAfterHeader | main.go:94-100 | a denial gets 429 with `Retry-After`. Parsed back, that header is the retry delay in whole seconds, rounded down and never negative. This holds for any history, including one left out of order by concurrent calls. The reply is JSON, and its body reports the limit and the window |
| Gateway.RetryAfterWithinWindow | main.go:94-97 | under the limiter invariant (calls locking in clock order), a denial's `Retry-After` is at most the window's whole seconds |
| Gateway.RetryAfterIsEarly | main.go:65-97 | a client that waits exactly the advertised `Retry-After` seconds and retries, with nothing admitted for its key meanwhile, is denied again. This holds for any history, including one left out of order by concurrent calls |
| Gateway.PreflightIsFree | main.go:88-92 | OPTIONS requests anywhere in a request sequence leave the other requests' responses unchanged, and each is answered 204 |

## Left out

- Traces.RunPreservesInv, RateLimit.AllowPreservesInv, RateLimit.RetryWithinWindow, RateLimit.RetryBoundary: they assume the calls take the mutex in the order of their clock readings. main.go:49-51 reads the clock before locking, so concurrent calls need not do so (`Traces.ClockReadBeforeLock` shows what then breaks).
- Gateway.RetryAfterWithinWindow: the bound of `Retry-After` by the window's whole seconds assumes the same lock-in-clock-order invariant. Without it the header can exceed the window (15 s under a 10 s window in `Traces.ClockReadBeforeLock`). `Gateway.RetryAfterHeader` states the parse round trip, the rounding down and the body without that assumption.

- The `sync.Mutex` (main.go:38, 51-52): each `allow` is one atomic transition. Per-key versus global locking is not modelled.
- `time.Now()` (main.go:49): replaced by the `now` parameter. Monotonic-clock readings are not modelled.
- Go `int64` and `time.Duration` overflow: `now - window` and `Sub` are exact on unbounded integers. `Sub` saturation cannot occur for realistic instants.
- `net.SplitHostPort` (main.go:79): its source is not part of this model. It is the abstract `splitHost` parameter.
- Gateway.TruncSeconds: exact integer truncation. The source goes through `float64`. The two agree for durations under about 200 days, which covers every retry delay of the 3-hour window.
- `Header.Get` canonicalisation and multi-valued headers: the request carries the first `X-Forwarded-For` value as one string.
- Strings are sequences of Unicode code points. `strings.TrimSpace` on invalid UTF-8 is not modelled.
- What `next.ServeHTTP` does, and write errors from `io.WriteString`: an admitted request is just `Forward`.
- `parseHandler` (main.go:135-304), the Gemini request and response types (main.go:107-131), `healthHandler` (main.go:29-34) and `main` (main.go:306-319): upstream I/O, JSON marshalling, environment loading and listener setup. Only `main`'s limiter configuration (50 per 3 hours) is kept.
- `allowCORS` (main.go:23-27) is kept only as the constant header map it sets.

## Findings

| source | as written | input that shows it | evidently intended | confidence | as-written member | corrected member |
|---|---|---|---|---|---|---|
| main.go:63-65 | when `len(q) >= rl.limit` the code reads `q[0]` to compute the retry delay | `newRateLimiter(0, w)` and any first request: the pruned slice is empty, `0 >= 0` holds, and `q[0]` panics (lemma `RateLimit.ZeroLimitPanics`) | a limiter without capacity denies every request, with the whole window as retry delay | high; not executed | RateLimit.AllowAsWritten | RateLimit.Admit |

The corrected `RateLimit.Admit` is what `RateLimit.Allow`, the traces and the
middleware use. `RateLimit.NonPositiveLimitDenies` and
`RateLimit.EmptyLimiterDeniesAll` prove the intended behaviour for every limit
of zero or less. `RateLimit.AllowMatchesSource` proves that for every positive limit,
including the production one, the correction changes nothing.

=== FILE: decimal.dfy ===
/**
 Decimal rendering of integers as Go's `fmt` verb `%d` writes them (used for
 the `Retry-After` header and the JSON body of main.go lines 97 and 100),
 and the parse a client would apply to read them back.
 */
module Decimal {
  import opened Wrappers

  predicate IsDigit(c: char) {
    '0' <= c <= '9'
  }

  predicate AllDigits(s: string) {
    forall i | 0 <= i < |s| :: IsDigit(s[i])
  }

  function DigitChar(d: nat): (c: char)
    requires d < 10
    ensures IsDigit(c)
  {
    (48 + d) as char
  }

  function DigitValue(c: char): (d: nat)
    requires IsDigit(c)
    ensures d < 10
  {
    c as int - 48
  }

  /** The digits of `n`, most significant first, without leading zeros. */
  function FormatNat(n: nat): (s: string)
    ensures |s| >= 1 && AllDigits(s)
    ensures s[0] == '0' ==> n == 0
    decreases n
  {
    if n < 10 then [DigitChar(n)] else FormatNat(n / 10) + [DigitChar(n % 10)]
  }

  /**
   `%d`: a minus sign before the digits of a negative value, and no leading
   zero except for zero itself.
   */
  function FormatInt(n: int): (s: string)
    ensures |s| >= 1
    ensures s[0] == '-' <==> n < 0
    ensures n >= 0 ==> AllDigits(s) && (n > 0 ==> s[0] != '0')
    ensures n < 0 ==> |s| >= 2 && AllDigits(s[1..]) && s[1] != '0'
  {
    if n < 0 then "-" + FormatNat(-n) else FormatNat(n)
  }

  /** The value of a string of decimal digits. */
  function DigitsValue(s: string): nat
    requires AllDigits(s)
    decreases |s|
  {
    if s == [] then 0 else DigitsValue(s[..|s| - 1]) * 10 + DigitValue(s[|s| - 1])
  }

  /** Reads an optionally signed decimal integer; anything else is `None`. */
  function ParseInt(s: string): Option<int> {
    if |s| > 1 && s[0] == '-' && AllDigits(s[1..]) then Some(0 - DigitsValue(s[1..]) as int)
    else if |s| > 0 && AllDigits(s) then Some(DigitsValue(s))
    else None
  }

  lemma {:induction false} FormatNatValue(n: nat)
    ensures DigitsValue(FormatNat(n)) == n
    decreases n
  {
    var s := FormatNat(n);
    if n >= 10 {
      FormatNatValue(n / 10);
      assert s[..|s| - 1] == FormatNat(n / 10);
    }
  }

  /** What `%d` writes, a client reads back unchanged. */
  lemma FormatIntRoundTrip(n: int)
    ensures ParseInt(FormatInt(n)) == Some(n)
  {
    var s := FormatInt(n);
    if n < 0 {
      FormatNatValue(-n);
      assert s[1..] == FormatNat(-n);
    } else {
      FormatNatValue(n);
    }
  }
}

=== FILE: gateway.dfy ===
/**
 The admission middleware `rateLimiter.Middleware` of main.go (lines
 86-104), as a pure function from the limiter state, the request and the
 current instant to a response descriptor and the next limiter state.
 */
module Gateway {
  import opened Wrappers
  import opened Window
  import opened RateLimit
  import opened Decimal
  import opened Keys

  const StatusNoContent: int := 204
  const StatusTooManyRequests: int := 429

  /**
   What the middleware does with a request: answer it itself, with a status,
   headers and body, or hand it to the wrapped handler untouched.
   */
  datatype Response = Reply(status: int, headers: map<string, string>, body: string) | Forward

  /** The headers `allowCORS` sets (main.go lines 23-27). */
  function CorsHeaders(): map<string, string> {
    map[
      "Access-Control-Allow-Origin" := "*",
      "Access-Control-Allow-Headers" := "Content-Type, Authorization",
      "Access-Control-Allow-Methods" := "POST, OPTIONS"
    ]
  }

  /**
   `int(d.Seconds())` for a duration of `d` nanoseconds: the quotient by one
   second, truncated toward zero for either sign.
   */
  function TruncSeconds(d: int): (s: int)
    ensures d >= 0 ==> 0 <= s && s * Second <= d < (s + 1) * Second
    ensures d < 0 ==> s <= 0 && (s - 1) * Second < d <= s * Second
  {
    if d >= 0 then d / Second else -((-d) / Second)
  }

  /** The JSON body of a denial. */
  function DenyBody(limit: int, windowSeconds: int): string {
    "{\"error\":\"rate limit exceeded\",\"limit\":" + FormatInt(limit)
      + ",\"window_seconds\":" + FormatInt(windowSeconds) + "}"
  }

  /**
   The 429 answer for a denial with `retry` nanoseconds to wait: the CORS
   headers survive next to `Retry-After` and the JSON content type, and the
   body reports the limiter's limit and its window in whole seconds.
   */
  function DenyResponse(l: RateLimiter, retry: int): (res: Response)
    ensures res.Reply? && res.status == StatusTooManyRequests
    ensures forall h | h in CorsHeaders() :: h in res.headers && res.headers[h] == CorsHeaders()[h]
    ensures "Content-Type" in res.headers && res.headers["Content-Type"] == "application/json"
    ensures "Retry-After" in res.headers && res.headers["Retry-After"] == FormatInt(TruncSeconds(retry))
    ensures res.body == DenyBody(l.limit, TruncSeconds(l.window))
  {
    Reply(StatusTooManyRequests,
          CorsHeaders()["Retry-After" := FormatInt(TruncSeconds(retry))]["Content-Type" := "application/json"],
          DenyBody(l.limit, TruncSeconds(l.window)))
  }

  /**
   The middleware: a preflight `OPTIONS` request is answered with 204 and
   never reaches the limiter; any other request consumes one `Allow` call on
   its client key and is either forwarded or answered with 429.
   */
  function Middleware(l: RateLimiter, r: Request, now: int, splitHost: string -> Option<string>)
    : (res: (Response, RateLimiter))
    ensures r.verb == "OPTIONS" ==> res == (Reply(StatusNoContent, CorsHeaders(), ""), l)
    ensures r.verb != "OPTIONS" ==>
      var s := Allow(l, ClientKey(r, splitHost), now);
      && res.1 == s.next
      && (res.0 == Forward <==> s.verdict.admitted)
      && (!s.verdict.admitted ==> res.0 == DenyResponse(l, s.verdict.retry))
  {
    if r.verb == "OPTIONS" then
      (Reply(StatusNoContent, CorsHeaders(), ""), l)
    else
      var s := Allow(l, ClientKey(r, splitHost), now);
      if s.verdict.admitted then (Forward, s.next) else (DenyResponse(l, s.verdict.retry), s.next)
  }

  /**
   A denial names its delay in whole seconds that a client reads back from
   `Retry-After`: the retry delay rounded down, never negative. This holds for
   any history, including one left out of order by concurrent calls.
   */
  lemma RetryAfterHeader(l: RateLimiter, r: Request, now: int, splitHost: string -> Option<string>)
    requires l.limit > 0 && r.verb != "OPTIONS"
    requires !Allow(l, ClientKey(r, splitHost), now).verdict.admitted
    ensures var res := Middleware(l, r, now, splitHost).0;
      var retry := Allow(l, ClientKey(r, splitHost), now).verdict.retry;
      && res.status == StatusTooManyRequests
      && "Retry-After" in res.headers
      && ParseInt(res.headers["Retry-After"]) == Some(TruncSeconds(retry))
      && 0 <= TruncSeconds(retry)
      && TruncSeconds(retry) * Second <= retry
      && res.headers["Content-Type"] == "application/json"
      && res.body == DenyBody(l.limit, TruncSeconds(l.window))
  {
    var key := ClientKey(r, splitHost);
    DeniedRetryNonNegative(Lookup(l.hits, key), l.limit, l.window, now);
    FormatIntRoundTrip(TruncSeconds(Allow(l, key, now).verdict.retry));
  }

  /**
   While calls take the mutex in the order of their clock readings (the
   limiter invariant), the advertised `Retry-After` never exceeds the
   window's whole seconds.
   */
  lemma RetryAfterWithinWindow(l: RateLimiter, r: Request, clock: int, now: int,
                               splitHost: string -> Option<string>)
    requires Inv(l, clock) && clock <= now && l.limit > 0 && r.verb != "OPTIONS"
    requires !Allow(l, ClientKey(r, splitHost), now).verdict.admitted
    ensures var retry := Allow(l, ClientKey(r, splitHost), now).verdict.retry;
      0 <= TruncSeconds(retry) <= TruncSeconds(l.window)
  {
    var key := ClientKey(r, splitHost);
    var q := Lookup(l.hits, key);
    assert KeyInv(q, l.limit, clock);
    RetryWithinWindow(q, l.limit, l.window, clock, now);
    TruncSecondsMonotone(Allow(l, key, now).verdict.retry, l.window);
  }

  lemma TruncSecondsMonotone(a: int, b: int)
    requires 0 <= a <= b
    ensures TruncSeconds(a) <= TruncSeconds(b)
  {
  }

  /**
   Because `Retry-After` is rounded down and an instant equal to the cutoff
   still counts, a client that waits exactly the advertised whole seconds
   and retries, with nothing else admitted for its key meanwhile, is denied
   again.
   */
  lemma RetryAfterIsEarly(q: seq<int>, limit: int, window: int, t: int)
    requires !Admit(q, limit, window, t).verdict.admitted
    ensures var a := Admit(q, limit, window, t);
      !Admit(a.kept, limit, window, t + TruncSeconds(a.verdict.retry) * Second).verdict.admitted
  {
    var a := Admit(q, limit, window, t);
    var p := Recent(q, window, t);
    var t2 := t + TruncSeconds(a.verdict.retry) * Second;
    if p != [] {
      assert p[0] == q[StaleCount(q, t - window)];
      assert StaleCount(p, t2 - window) == 0;
      assert Recent(p, window, t2) == p;
    }
  }

  /** The responses to a sequence of requests, each with its arrival instant. */
  function Serve(l: RateLimiter, reqs: seq<(Request, int)>, splitHost: string -> Option<string>)
    : (rs: seq<Response>)
    ensures |rs| == |reqs|
    decreases |reqs|
  {
    if reqs == [] then []
    else
      var step := Middleware(l, reqs[0].0, reqs[0].1, splitHost);
      [step.0] + Serve(step.1, reqs[1..], splitHost)
  }

  /** The requests that are not preflight requests. */
  function NonPreflight(reqs: seq<(Request, int)>): (r: seq<(Request, int)>)
    ensures |r| <= |reqs|
  {
    if reqs == [] then []
    else if reqs[0].0.verb == "OPTIONS" then NonPreflight(reqs[1..])
    else [reqs[0]] + NonPreflight(reqs[1..])
  }

  /** The responses given to the requests that are not preflight requests. */
  function NonPreflightResponses(reqs: seq<(Request, int)>, rs: seq<Response>): (r: seq<Response>)
    requires |rs| == |reqs|
    ensures |r| == |NonPreflight(reqs)|
  {
    if reqs == [] then []
    else if reqs[0].0.verb == "OPTIONS" then NonPreflightResponses(reqs[1..], rs[1..])
    else [rs[0]] + NonPreflightResponses(reqs[1..], rs[1..])
  }

  /**
   Preflight requests consume no quota: interleaving `OPTIONS` requests
   anywhere changes none of the answers the other requests get, and every
   preflight request is answered 204.
   */
  lemma {:induction false} PreflightIsFree(l: RateLimiter, reqs: seq<(Request, int)>,
                                           splitHost: string -> Option<string>)
    ensures NonPreflightResponses(reqs, Serve(l, reqs, splitHost)) == Serve(l, NonPreflight(reqs), splitHost)
    ensures forall i | 0 <= i < |reqs| && reqs[i].0.verb == "OPTIONS" ::
      Serve(l, reqs, splitHost)[i] == Reply(StatusNoContent, CorsHeaders(), "")
    decreases |reqs|
  {
    if reqs != [] {
      var step := Middleware(l, reqs[0].0, reqs[0].1, splitHost);
      var rest := Serve(step.1, reqs[1..], splitHost);
      assert Serve(l, reqs, splitHost) == [step.0] + rest;
      assert Serve(l, reqs, splitHost)[1..] == rest;
      PreflightIsFree(step.1, reqs[1..], splitHost);
      if reqs[0].0.verb != "OPTIONS" {
        var np := NonPreflight(reqs);
        assert np == [reqs[0]] + NonPreflight(reqs[1..]);
        assert np[1..] == NonPreflight(reqs[1..]);
      }
      forall i | 1 <= i < |reqs| && reqs[i].0.verb == "OPTIONS"
        ensures Serve(l, reqs, splitHost)[i] == Reply(StatusNoContent, CorsHeaders(), "")
      {
        assert Serve(l, reqs, splitHost)[i] == rest[i - 1];
        assert reqs[1..][i - 1] == reqs[i];
      }
    }
  }
}

=== FILE: keys.dfy ===
/**
 Derivation of the rate-limit key from request metadata, `clientKey` in
 main.go (lines 74-84): the first comma-separated entry of the
 `X-Forwarded-For` header with surrounding white space removed, or else the
 host part of the connection's remote address, or else the whole address.
 */
module Keys {
  import opened Wrappers

  /**
   The request metadata the core reads: `verb` is the HTTP method. `forwardedFor` is what
   `Header.Get("X-Forwarded-For")` returns: the first value of the header,
   or "" when it is absent.
   */
  datatype Request = Request(verb: string, forwardedFor: string, remoteAddr: string)

  /** White space as Go's `unicode.IsSpace` defines it, the set `strings.TrimSpace` removes. */
  predicate IsSpace(c: char) {
    var n := c as int;
    n == 0x20 || (0x09 <= n <= 0x0D) || n == 0x85 || n == 0xA0 || n == 0x1680
    || (0x2000 <= n <= 0x200A) || n == 0x2028 || n == 0x2029 || n == 0x202F
    || n == 0x205F || n == 0x3000
  }

  predicate AllSpace(s: string) {
    forall i | 0 <= i < |s| :: IsSpace(s[i])
  }

  /** Neither end of `s` is white space. */
  predicate Trimmed(s: string) {
    s == [] || (!IsSpace(s[0]) && !IsSpace(s[|s| - 1]))
  }

  /** The length of the white-space run at the front of `s`. */
  function LeadingSpaces(s: string): (n: nat)
    ensures n <= |s|
    ensures forall t | 0 <= t < n :: IsSpace(s[t])
    ensures n == |s| || !IsSpace(s[n])
  {
    if s != [] && IsSpace(s[0]) then 1 + LeadingSpaces(s[1..]) else 0
  }

  /** The length of the white-space run at the back of `s`. */
  function TrailingSpaces(s: string): (m: nat)
    ensures m <= |s|
    ensures forall t | |s| - m <= t < |s| :: IsSpace(s[t])
    ensures m == |s| || !IsSpace(s[|s| - m - 1])
  {
    if s != [] && IsSpace(s[|s| - 1]) then 1 + TrailingSpaces(s[..|s| - 1]) else 0
  }

  /**
   `r` occurs in `s` at offset `i` with only white space before and after it:
   `r` is `s` with white-space runs removed from both ends.
   */
  predicate TrimAt(s: string, r: string, i: int) {
    0 <= i <= |s| - |r| && s[i..i + |r|] == r &&
    (forall t | 0 <= t < i :: IsSpace(s[t])) &&
    (forall t | i + |r| <= t < |s| :: IsSpace(s[t]))
  }

  /** `r` is `s` with white-space runs removed from both ends, at some offset. */
  ghost predicate TrimOf(s: string, r: string) {
    exists i :: TrimAt(s, r, i)
  }

  /** `strings.TrimSpace`. */
  function TrimSpace(s: string): (r: string)
    ensures TrimOf(s, r) && Trimmed(r)
  {
    var n := LeadingSpaces(s);
    var m := TrailingSpaces(s[n..]);
    var e := |s| - m;
    assert forall u | e <= u < |s| :: IsSpace(s[u]) by {
      forall u | e <= u < |s| ensures IsSpace(s[u]) {
        assert s[n..][u - n] == s[u];
      }
    }
    assert e > n ==> !IsSpace(s[e - 1]) by {
      assert e > n ==> s[n..][|s| - n - m - 1] == s[e - 1];
    }
    assert TrimAt(s, s[n..e], n);
    s[n..e]
  }

  /** What an offset witnessing `TrimOf(s, r)` says about the characters of `s`. */
  lemma TrimWitness(s: string, r: string, i: nat)
    requires TrimAt(s, r, i) && Trimmed(r)
    ensures forall t | 0 <= t < |r| :: s[i + t] == r[t]
    ensures r != [] ==> !IsSpace(s[i]) && !IsSpace(s[i + |r| - 1])
  {
    forall t | 0 <= t < |r| ensures s[i + t] == r[t] { assert s[i..i + |r|][t] == s[i + t]; }
  }

  /** Trimming has one answer: two trimmed strings that both trim `s` are equal. */
  lemma TrimOfUnique(s: string, a: string, b: string)
    requires TrimOf(s, a) && Trimmed(a) && TrimOf(s, b) && Trimmed(b)
    ensures a == b
  {
    var i :| TrimAt(s, a, i);
    var j :| TrimAt(s, b, j);
    TrimWitness(s, a, i);
    TrimWitness(s, b, j);
    assert |a| == |b| && (a != [] ==> i == j);
    forall t | 0 <= t < |a| ensures a[t] == b[t] {
      assert a[t] == s[i + t];
    }
  }

  /** White space around a trimmed core is exactly what trimming removes. */
  lemma TrimSpaceOfPadded(pre: string, core: string, post: string)
    requires AllSpace(pre) && AllSpace(post) && Trimmed(core)
    ensures TrimSpace(pre + core + post) == core
  {
    var s := pre + core + post;
    var i := |pre|;
    assert s[i..i + |core|] == core;
    forall t | 0 <= t < i ensures IsSpace(s[t]) { assert s[t] == pre[t]; }
    forall t | i + |core| <= t < |s| ensures IsSpace(s[t]) { assert s[t] == post[t - i - |core|]; }
    assert TrimAt(s, core, i);
    TrimOfUnique(s, TrimSpace(s), core);
  }

  /** A character absent from `s` is absent from every trim of it. */
  lemma TrimOfKeepsOut(s: string, r: string, c: char)
    requires TrimOf(s, r) && c !in s
    ensures c !in r
  {
    var i :| TrimAt(s, r, i);
    assert forall t | 0 <= t < |r| :: r[t] == s[i + t];
  }

  /** `strings.Split(s, ",")[0]`: the text before the first comma, or all of `s`. */
  function FirstField(s: string): (r: string)
    ensures |r| <= |s| && r == s[..|r|]
    ensures ',' !in r
    ensures |r| == |s| || s[|r|] == ','
  {
    if s == [] || s[0] == ',' then [] else [s[0]] + FirstField(s[1..])
  }

  /** Any comma-free prefix ending at a comma or at the end is the first field. */
  lemma FirstFieldUnique(s: string, n: nat)
    requires n <= |s|
    requires forall t | 0 <= t < n :: s[t] != ','
    requires n == |s| || s[n] == ','
    ensures FirstField(s) == s[..n]
  {
    var f := FirstField(s);
    assert |f| == n;
  }

  /**
   `clientKey`. `splitHost` stands for `net.SplitHostPort`, whose source is
   not part of this model: it yields the host part, or `None` on an error.
   */
  function ClientKey(r: Request, splitHost: string -> Option<string>): (k: string)
    ensures r.forwardedFor != "" ==>
      ',' !in k && Trimmed(k) && TrimOf(FirstField(r.forwardedFor), k)
    ensures r.forwardedFor == "" && splitHost(r.remoteAddr).Some? ==> k == splitHost(r.remoteAddr).value
    ensures r.forwardedFor == "" && splitHost(r.remoteAddr).None? ==> k == r.remoteAddr
  {
    if r.forwardedFor != "" then
      var k := TrimSpace(FirstField(r.forwardedFor));
      TrimOfKeepsOut(FirstField(r.forwardedFor), k, ',');
      k
    else
      match splitHost(r.remoteAddr)
      case Some(host) => host
      case None => r.remoteAddr
  }

  /**
   The key is whatever the client writes first in `X-Forwarded-For`: any
   non-empty text free of commas and of white space at its ends, padded with
   white space and followed by nothing or by further comma-separated entries,
   becomes the key whatever the connection's address.
   */
  lemma ForwardedKeyIsClientChosen(r: Request, splitHost: string -> Option<string>,
                                    pre: string, key: string, post: string, rest: string)
    requires AllSpace(pre) && AllSpace(post) && Trimmed(key) && key != []
    requires ',' !in pre + key + post
    requires rest == [] || rest[0] == ','
    requires r.forwardedFor == pre + key + post + rest
    ensures ClientKey(r, splitHost) == key
  {
    var field := pre + key + post;
    var s := r.forwardedFor;
    assert s[..|field|] == field;
    assert forall t | 0 <= t < |field| :: s[t] != ',' by {
      forall t | 0 <= t < |field| ensures s[t] != ',' { assert s[t] == field[t]; }
    }
    assert |field| == |s| || s[|field|] == ',';
    FirstFieldUnique(s, |field|);
    TrimSpaceOfPadded(pre, key, post);
  }
}

=== FILE: ratelimit.dfy ===
/**
 The in-memory sliding-window rate limiter of main.go (lines 36-72).

 The limiter is a value: a map from client key to the admission instants
 still remembered for that key, plus the fixed `limit` and `window`. One
 call of `allow` reads the clock and computes the cutoff (lines 49-50), then
 updates the map under the limiter's mutex (line 51), so it is modelled as
 one state transition taking the instant `now` it read as a parameter. The
 decision for one key (`Admit`) only reads and rewrites that key's sequence;
 `Allow` applies it to the map.
 */
module RateLimit {
  import opened Wrappers
  import opened Window

  /** One second and one hour as nanosecond `time.Duration` values. */
  const Second: int := 1_000_000_000
  const Hour: int := 3600 * Second

  datatype RateLimiter = RateLimiter(hits: map<string, seq<int>>, limit: int, window: int)

  /** The answer of one `allow` call: admitted or not, and the retry delay in nanoseconds. */
  datatype Verdict = Verdict(admitted: bool, retry: int)

  /** A verdict together with what the key's sequence becomes. */
  datatype KeyStep = KeyStep(verdict: Verdict, kept: seq<int>)

  /** A verdict together with the limiter state the call leaves behind. */
  datatype Step = Step(verdict: Verdict, next: RateLimiter)

  /** The stored sequence for `key`; a key never seen reads as empty, as a Go nil slice does. */
  function Lookup(hits: map<string, seq<int>>, key: string): seq<int> {
    if key in hits then hits[key] else []
  }

  /** `newRateLimiter`: no key has any history yet. */
  function NewRateLimiter(limit: int, window: int): (l: RateLimiter)
    ensures forall key :: Lookup(l.hits, key) == []
    ensures l.limit == limit && l.window == window
  {
    RateLimiter(map[], limit, window)
  }

  /** The limiter built by `main`: 50 requests per three hours. */
  function ProductionLimiter(): RateLimiter {
    NewRateLimiter(50, 3 * Hour)
  }

  /** The instants of `q` that survive pruning at `now`. */
  function Recent(q: seq<int>, window: int, now: int): seq<int> {
    Pruned(q, now - window)
  }

  /**
   `allow` exactly as written. `None` is the run-time panic of reading `q[0]`
   when the pruned sequence is empty yet not shorter than `limit`.
   */
  function AllowAsWritten(l: RateLimiter, key: string, now: int): (r: Option<Step>)
    ensures r == None <==> l.limit <= 0 && Recent(Lookup(l.hits, key), l.window, now) == []
  {
    var q := Recent(Lookup(l.hits, key), l.window, now);
    if |q| >= l.limit then
      if |q| == 0 then None
      else Some(Step(Verdict(false, l.window - (now - q[0])), l.(hits := l.hits[key := q])))
    else
      Some(Step(Verdict(true, 0), l.(hits := l.hits[key := q + [now]])))
  }

  /**
   The admission decision for one key whose stored sequence is `q`, with the
   empty-sequence panic repaired: when nothing survives pruning and the limit
   is still reached (only possible for `limit <= 0`) the request is denied
   with a whole window as retry delay.
   */
  function Admit(q: seq<int>, limit: int, window: int, now: int): (r: KeyStep)
    ensures r.verdict.admitted <==> |Recent(q, window, now)| < limit
    ensures r.verdict.admitted ==> r.verdict.retry == 0 && r.kept == Recent(q, window, now) + [now]
    ensures !r.verdict.admitted ==> r.kept == Recent(q, window, now)
    ensures !r.verdict.admitted && Recent(q, window, now) != [] ==>
              r.verdict.retry == window - (now - Recent(q, window, now)[0])
    ensures !r.verdict.admitted && Recent(q, window, now) == [] ==> r.verdict.retry == window
  {
    var p := Recent(q, window, now);
    if |p| >= limit then
      KeyStep(Verdict(false, if |p| == 0 then window else window - (now - p[0])), p)
    else
      KeyStep(Verdict(true, 0), p + [now])
  }

  /**
   `allow` with the repair: only the entry of `key` is written, and it is
   always written (a key once seen is never removed); `limit` and `window`
   never change.
   */
  function Allow(l: RateLimiter, key: string, now: int): (s: Step)
    ensures s.next.limit == l.limit && s.next.window == l.window
    ensures s.next.hits.Keys == l.hits.Keys + {key}
    ensures forall k | k in l.hits && k != key :: s.next.hits[k] == l.hits[k]
    ensures var a := Admit(Lookup(l.hits, key), l.limit, l.window, now);
      s.verdict == a.verdict && s.next.hits[key] == a.kept
  {
    var a := Admit(Lookup(l.hits, key), l.limit, l.window, now);
    var hits := l.hits[key := a.kept];
    assert hits.Keys == l.hits.Keys + {key};
    Step(a.verdict, l.(hits := hits))
  }

  /** With a positive limit the repaired `Allow` never departs from the source. */
  lemma AllowMatchesSource(l: RateLimiter, key: string, now: int)
    requires l.limit > 0
    ensures AllowAsWritten(l, key, now) == Some(Allow(l, key, now))
  {
  }

  /** With `limit == 0` the very first request of any key panics in the source. */
  lemma ZeroLimitPanics(window: int, key: string, now: int)
    ensures AllowAsWritten(NewRateLimiter(0, window), key, now) == None
  {
  }

  /** The configuration of `main` can never reach the panic, whatever the history. */
  lemma ProductionNeverPanics(l: RateLimiter, key: string, now: int)
    requires l.limit == ProductionLimiter().limit
    ensures AllowAsWritten(l, key, now).Some?
  {
  }

  /**
   What calls with non-decreasing instants keep true of one key's sequence:
   sorted, no instant after `clock` (the latest instant seen), and at most
   `limit` instants.
   */
  predicate KeyInv(q: seq<int>, limit: int, clock: int) {
    Sorted(q) && NotAfter(q, clock) && |q| <= limit
  }

  /** `KeyInv` for every stored key. */
  predicate Inv(l: RateLimiter, clock: int) {
    forall k | k in l.hits :: KeyInv(l.hits[k], l.limit, clock)
  }

  lemma NewLimiterInv(limit: int, window: int, clock: int)
    ensures Inv(NewRateLimiter(limit, window), clock)
  {
  }

  /** One admission decision keeps `KeyInv`, advancing the clock to `now`. */
  lemma AdmitPreservesKeyInv(q: seq<int>, limit: int, window: int, clock: int, now: int)
    requires KeyInv(q, limit, clock) && clock <= now && limit >= 0
    ensures KeyInv(Admit(q, limit, window, now).kept, limit, now)
  {
    PrunedWellFormed(q, now - window, clock);
    if Admit(q, limit, window, now).verdict.admitted {
      AppendWellFormed(Recent(q, window, now), clock, now);
    }
  }

  /** `Inv` survives every call whose instant is not earlier than the clock. */
  lemma AllowPreservesInv(l: RateLimiter, key: string, clock: int, now: int)
    requires Inv(l, clock) && clock <= now && l.limit >= 0
    ensures Inv(Allow(l, key, now).next, now)
  {
    var s := Allow(l, key, now);
    assert KeyInv(Lookup(l.hits, key), l.limit, clock);
    AdmitPreservesKeyInv(Lookup(l.hits, key), l.limit, l.window, clock, now);
    forall k | k in s.next.hits
      ensures KeyInv(s.next.hits[k], l.limit, now)
    {
      if k != key {
        assert KeyInv(l.hits[k], l.limit, clock);
      }
    }
  }

  /**
   A denial's retry delay lies within `[0, window]`: the oldest surviving
   instant is at or after the cutoff and not after `now`.
   */
  lemma RetryWithinWindow(q: seq<int>, limit: int, window: int, clock: int, now: int)
    requires KeyInv(q, limit, clock) && clock <= now && limit > 0
    ensures var v := Admit(q, limit, window, now).verdict;
      !v.admitted ==> 0 <= v.retry <= window
  {
    var p := Recent(q, window, now);
    if !Admit(q, limit, window, now).verdict.admitted {
      assert p[0] == q[|q| - |p|];
    }
  }

  /**
   After a denial at `t` with delay `retry`, the next request of the same key
   is admitted exactly when it comes strictly after `t + retry`. At
   `t + retry` itself it is still denied, because an instant equal to the
   cutoff is kept.
   */
  lemma RetryBoundary(q: seq<int>, limit: int, window: int, clock: int, t: int, t2: int)
    requires KeyInv(q, limit, clock) && clock <= t && t <= t2 && limit > 0
    requires !Admit(q, limit, window, t).verdict.admitted
    ensures Admit(Admit(q, limit, window, t).kept, limit, window, t2).verdict.admitted <==>
            t2 > t + Admit(q, limit, window, t).verdict.retry
  {
    var p := Recent(q, window, t);
    PrunedWellFormed(q, t - window, clock);
    assert |p| == limit;
    var c2 := t2 - window;
    if p[0] < c2 {
      assert StaleCount(p, c2) >= 1;
    } else {
      forall j | 0 <= j < |p|
        ensures p[j] >= c2
      {
        assert p[0] <= p[j];
      }
      PruneKeepsRecent(p, c2);
    }
  }

  /**
   A denial's retry delay is never negative, whatever the history: the oldest
   surviving instant is at or after the cutoff.
   */
  lemma DeniedRetryNonNegative(q: seq<int>, limit: int, window: int, now: int)
    requires limit > 0 && !Admit(q, limit, window, now).verdict.admitted
    ensures Admit(q, limit, window, now).verdict.retry >= 0
  {
    var p := Recent(q, window, now);
    assert p[0] == q[StaleCount(q, now - window)];
  }

  /**
   A key left idle for longer than the window has forgotten its history:
   with a positive limit it is admitted and keeps only the new instant.
   */
  lemma IdleKeyForgets(q: seq<int>, limit: int, window: int, now: int)
    requires limit > 0
    requires forall j | 0 <= j < |q| :: q[j] < now - window
    ensures Admit(q, limit, window, now) == KeyStep(Verdict(true, 0), [now])
  {
    LongestStalePrefix(q, now - window, |q|);
  }

  /**
   The repaired behaviour without capacity: with a limit of zero or less
   every request is denied and nothing is added to the history; a key with
   no surviving history is told to wait the whole window.
   */
  lemma NonPositiveLimitDenies(q: seq<int>, limit: int, window: int, now: int)
    requires limit <= 0
    ensures !Admit(q, limit, window, now).verdict.admitted
    ensures Admit(q, limit, window, now).kept == Recent(q, window, now)
    ensures Recent(q, window, now) == [] ==> Admit(q, limit, window, now).verdict == Verdict(false, window)
  {
  }

  /** Every key of `hits` has an empty history. */
  predicate AllEmpty(hits: map<string, seq<int>>) {
    forall k | k in hits :: hits[k] == []
  }

  /**
   A limiter without capacity stays empty: each `Allow` denies with the
   whole window as retry delay and stores nothing, so from
   `NewRateLimiter(limit, window)` with `limit <= 0` every call is denied.
   */
  lemma EmptyLimiterDeniesAll(l: RateLimiter, key: string, now: int)
    requires l.limit <= 0 && AllEmpty(l.hits)
    ensures Allow(l, key, now).verdict == Verdict(false, l.window)
    ensures AllEmpty(Allow(l, key, now).next.hits)
  {
    var q := Lookup(l.hits, key);
    assert q == [];
    assert Recent(q, l.window, now) == [];
    NonPositiveLimitDenies(q, l.limit, l.window, now);
  }
}

=== FILE: traces.dfy ===
/**
 Sequences of `allow` calls. Each call updates the state atomically (main.go
 line 51 takes the limiter's mutex before `hits` is read), so any concurrent
 execution is some sequence of whole updates, which `Run` replays. The
 instant of a call is read before the mutex (lines 49-50), so that sequence
 need not follow the order of the instants: `Run` accepts any order, and the
 invariant lemmas assume the chronological one.
 */
module Traces {
  import opened Window
  import opened RateLimit

  /** One `allow(key)` call issued at instant `now`. */
  datatype Call = Call(key: string, now: int)

  /** The verdicts of a sequence of calls, in order, and the final limiter. */
  function Run(l: RateLimiter, calls: seq<Call>): (r: (seq<Verdict>, RateLimiter))
    ensures |r.0| == |calls|
    ensures r.1.limit == l.limit && r.1.window == l.window
    decreases |calls|
  {
    if calls == [] then ([], l)
    else
      var s := Allow(l, calls[0].key, calls[0].now);
      var rest := Run(s.next, calls[1..]);
      ([s.verdict] + rest.0, rest.1)
  }

  /** Call instants never go backwards and none precedes `clock`. */
  predicate Chronological(calls: seq<Call>, clock: int) {
    forall i | 0 <= i < |calls| ::
      clock <= calls[i].now && (i + 1 < |calls| ==> calls[i].now <= calls[i + 1].now)
  }

  /**
   Along any chronological sequence of calls with a non-negative limit the
   state invariant holds after every call: sequences stay sorted, bounded by
   `limit`, and not after the latest instant.
   */
  lemma {:induction false} RunPreservesInv(l: RateLimiter, calls: seq<Call>, clock: int)
    requires Inv(l, clock) && l.limit >= 0 && Chronological(calls, clock)
    ensures Inv(Run(l, calls).1, if calls == [] then clock else calls[|calls| - 1].now)
    decreases |calls|
  {
    if calls != [] {
      var c := calls[0];
      var s := Allow(l, c.key, c.now);
      AllowPreservesInv(l, c.key, clock, c.now);
      assert Chronological(calls[1..], c.now) by {
        forall i | 0 <= i < |calls[1..]|
          ensures c.now <= calls[1..][i].now
        {
          ChronologicalFromFirst(calls, clock, i + 1);
        }
      }
      RunPreservesInv(s.next, calls[1..], c.now);
      if |calls| > 1 {
        assert calls[1..][|calls[1..]| - 1] == calls[|calls| - 1];
      }
    }
  }

  /** In a chronological sequence every call is at or after the first. */
  lemma {:induction false} ChronologicalFromFirst(calls: seq<Call>, clock: int, i: nat)
    requires Chronological(calls, clock) && i < |calls|
    ensures calls[0].now <= calls[i].now
    decreases i
  {
    if i > 0 {
      ChronologicalFromFirst(calls, clock, i - 1);
    }
  }

  /** The verdicts one key receives when its calls arrive at instants `ts`, from history `q`. */
  function KeyRun(q: seq<int>, limit: int, window: int, ts: seq<int>): (vs: seq<Verdict>)
    ensures |vs| == |ts|
    decreases |ts|
  {
    if ts == [] then []
    else
      var a := Admit(q, limit, window, ts[0]);
      [a.verdict] + KeyRun(a.kept, limit, window, ts[1..])
  }

  /** The instants of the calls made for `key`, in order. */
  function KeyTimes(calls: seq<Call>, key: string): (ts: seq<int>)
    ensures |ts| <= |calls|
  {
    if calls == [] then []
    else if calls[0].key == key then [calls[0].now] + KeyTimes(calls[1..], key)
    else KeyTimes(calls[1..], key)
  }

  /** The verdicts given to the calls for `key`, in order. */
  function KeyVerdicts(calls: seq<Call>, vs: seq<Verdict>, key: string): (r: seq<Verdict>)
    requires |vs| == |calls|
    ensures |r| == |KeyTimes(calls, key)|
  {
    if calls == [] then []
    else if calls[0].key == key then [vs[0]] + KeyVerdicts(calls[1..], vs[1..], key)
    else KeyVerdicts(calls[1..], vs[1..], key)
  }

  /**
   Keys do not affect each other: inside any interleaving, the verdicts a key
   receives are those of replaying its own calls against its own history
   alone, whatever the other keys do.
   */
  lemma {:induction false} KeysAreIsolated(l: RateLimiter, calls: seq<Call>, key: string)
    ensures KeyVerdicts(calls, Run(l, calls).0, key)
         == KeyRun(Lookup(l.hits, key), l.limit, l.window, KeyTimes(calls, key))
    decreases |calls|
  {
    if calls != [] {
      var c := calls[0];
      var s := Allow(l, c.key, c.now);
      var rest := Run(s.next, calls[1..]).0;
      assert Run(l, calls).0 == [s.verdict] + rest;
      assert (if c.key == key then [s.verdict] + KeyVerdicts(calls[1..], rest, key)
              else KeyVerdicts(calls[1..], rest, key)) == KeyVerdicts(calls, Run(l, calls).0, key) by {
        assert Run(l, calls).0[1..] == rest;
      }
      KeysAreIsolated(s.next, calls[1..], key);
      if c.key == key {
        var ts := KeyTimes(calls, key);
        assert ts == [c.now] + KeyTimes(calls[1..], key);
        assert ts[1..] == KeyTimes(calls[1..], key);
        assert Lookup(s.next.hits, key) == Admit(Lookup(l.hits, key), l.limit, l.window, c.now).kept;
      } else {
        assert Lookup(s.next.hits, key) == Lookup(l.hits, key);
      }
    }
  }

  /**
   No instant is later than one window after the first one, the instant of
   the call that takes the mutex first; earlier instants may come in any order.
   */
  predicate WithinOneWindow(ts: seq<int>, window: int) {
    |ts| > 0 && forall j | 0 <= j < |ts| :: ts[j] <= ts[0] + window
  }

  function Min(a: int, b: int): int {
    if a <= b then a else b
  }

  /** `KeyRun` answers the first call with `Admit` and carries its sequence to the rest. */
  lemma KeyRunFirst(q: seq<int>, limit: int, window: int, ts: seq<int>)
    requires ts != []
    ensures KeyRun(q, limit, window, ts)[0] == Admit(q, limit, window, ts[0]).verdict
    ensures KeyRun(q, limit, window, ts)[1..]
         == KeyRun(Admit(q, limit, window, ts[0]).kept, limit, window, ts[1..])
  {
  }

  /**
   The state of a burst before call number `i`: after the stale prefix, the
   history holds exactly the first `min(i, limit)` instants, all admitted.
   */
  predicate BurstState(q: seq<int>, limit: int, window: int, ts: seq<int>, i: nat)
    requires i < |ts|
  {
    var n := StaleCount(q, ts[i] - window);
    0 <= limit && n + Min(i, limit) == |q| &&
    forall k | 0 <= k < Min(i, limit) :: q[n + k] == ts[k]
  }

  /** Call number `i` of a burst: admitted while fewer than `limit` came before. */
  lemma BurstStep(q: seq<int>, limit: int, window: int, ts: seq<int>, i: nat)
    requires limit > 0 && i < |ts| && WithinOneWindow(ts, window)
    requires BurstState(q, limit, window, ts, i)
    ensures Admit(q, limit, window, ts[i]).verdict
         == if i < limit then Verdict(true, 0) else Verdict(false, window - (ts[i] - ts[0]))
    ensures Admit(q, limit, window, ts[i]).kept == ts[..Min(i + 1, limit)]
  {
    var n := StaleCount(q, ts[i] - window);
    var recent := Recent(q, window, ts[i]);
    assert recent == q[n..];
    assert recent == ts[..Min(i, limit)] by {
      forall k | 0 <= k < |recent|
        ensures recent[k] == ts[k]
      {
        assert recent[k] == q[n + k];
      }
    }
    if i >= limit {
      assert recent[0] == ts[0];
    } else {
      assert recent + [ts[i]] == ts[..i + 1];
    }
  }

  /** Nothing admitted during a burst is pruned before the burst ends. */
  lemma BurstKeepsAll(limit: int, window: int, ts: seq<int>, i: nat)
    requires limit > 0 && i + 1 < |ts| && WithinOneWindow(ts, window)
    ensures BurstState(ts[..Min(i + 1, limit)], limit, window, ts, i + 1)
  {
    var kept := ts[..Min(i + 1, limit)];
    var n := StaleCount(kept, ts[i + 1] - window);
    assert kept[0] == ts[0];
    assert n == 0;
  }

  /** Verdict number `j > 0` of `KeyRun` is verdict `j - 1` of the run after the first call. */
  lemma KeyRunShift(q: seq<int>, limit: int, window: int, ts: seq<int>, j: nat)
    requires 0 < j < |ts|
    ensures KeyRun(q, limit, window, ts)[j]
         == KeyRun(Admit(q, limit, window, ts[0]).kept, limit, window, ts[1..])[j - 1]
  {
    KeyRunFirst(q, limit, window, ts);
  }

  /** The first verdict of a burst from call number `i` on. */
  lemma BurstHead(q: seq<int>, limit: int, window: int, ts: seq<int>, i: nat)
    requires limit > 0 && i < |ts| && WithinOneWindow(ts, window)
    requires BurstState(q, limit, window, ts, i)
    ensures KeyRun(q, limit, window, ts[i..])[0]
         == if i < limit then Verdict(true, 0) else Verdict(false, window - (ts[i] - ts[0]))
  {
    assert ts[i..][0] == ts[i];
    KeyRunFirst(q, limit, window, ts[i..]);
    BurstStep(q, limit, window, ts, i);
  }

  /** After call number `i` of a burst, the run continues from the burst state of call `i + 1`. */
  lemma BurstTail(q: seq<int>, limit: int, window: int, ts: seq<int>, i: nat, j: nat)
    requires limit > 0 && i + j < |ts| && 0 < j && WithinOneWindow(ts, window)
    requires BurstState(q, limit, window, ts, i)
    ensures KeyRun(q, limit, window, ts[i..])[j]
         == KeyRun(ts[..Min(i + 1, limit)], limit, window, ts[i + 1..])[j - 1]
  {
    assert ts[i..][0] == ts[i];
    assert ts[i..][1..] == ts[i + 1..];
    KeyRunShift(q, limit, window, ts[i..], j);
    BurstStep(q, limit, window, ts, i);
  }

  /** `BurstHead` once call number `i > 0` has been reached. */
  lemma BurstHeadLater(limit: int, window: int, ts: seq<int>, i: nat)
    requires limit > 0 && 0 < i < |ts| && WithinOneWindow(ts, window)
    ensures KeyRun(ts[..Min(i, limit)], limit, window, ts[i..])[0]
         == if i < limit then Verdict(true, 0) else Verdict(false, window - (ts[i] - ts[0]))
  {
    BurstKeepsAll(limit, window, ts, i - 1);
    BurstHead(ts[..Min(i, limit)], limit, window, ts, i);
  }

  /** `BurstTail` once call number `i > 0` has been reached. */
  lemma BurstTailLater(limit: int, window: int, ts: seq<int>, i: nat, j: nat)
    requires limit > 0 && 0 < i && i + j < |ts| && 0 < j && WithinOneWindow(ts, window)
    ensures KeyRun(ts[..Min(i, limit)], limit, window, ts[i..])[j]
         == KeyRun(ts[..Min(i + 1, limit)], limit, window, ts[i + 1..])[j - 1]
  {
    BurstKeepsAll(limit, window, ts, i - 1);
    BurstTail(ts[..Min(i, limit)], limit, window, ts, i, j);
  }

  /**
   The induction behind `BurstWithinWindow`: verdict number `j` from call
   number `i > 0` on, when the history holds the calls admitted so far.
   */
  lemma {:induction false} BurstFrom(limit: int, window: int, ts: seq<int>, i: nat, j: nat)
    requires limit > 0 && 0 < i && i + j < |ts| && WithinOneWindow(ts, window)
    ensures KeyRun(ts[..Min(i, limit)], limit, window, ts[i..])[j]
         == if i + j < limit then Verdict(true, 0) else Verdict(false, window - (ts[i + j] - ts[0]))
    decreases j
  {
    if j == 0 {
      BurstHeadLater(limit, window, ts, i);
    } else {
      BurstTailLater(limit, window, ts, i, j);
      BurstFrom(limit, window, ts, i + 1, j - 1);
    }
  }

  /**
   Sliding-window admission: for a key with no surviving history, calls whose
   instants lie within one window of the first are admitted for the first
   `limit` of them and denied afterwards, each denial naming the time until
   the first call leaves the window. With equal instants this is a burst of
   simultaneous requests: exactly `limit` of them get through.
   */
  lemma {:induction false} BurstWithinWindow(q: seq<int>, limit: int, window: int, ts: seq<int>)
    requires limit > 0 && WithinOneWindow(ts, window)
    requires Recent(q, window, ts[0]) == []
    ensures forall i | 0 <= i < |ts| :: (KeyRun(q, limit, window, ts)[i].admitted <==> i < limit)
    ensures forall i | limit <= i < |ts| :: KeyRun(q, limit, window, ts)[i].retry == window - (ts[i] - ts[0])
  {
    forall i | 0 <= i < |ts|
      ensures KeyRun(q, limit, window, ts)[i]
           == if i < limit then Verdict(true, 0) else Verdict(false, window - (ts[i] - ts[0]))
    {
      BurstVerdict(q, limit, window, ts, i);
    }
  }

  /** Verdict number `i` of `BurstWithinWindow`. */
  lemma BurstVerdict(q: seq<int>, limit: int, window: int, ts: seq<int>, i: nat)
    requires limit > 0 && WithinOneWindow(ts, window) && i < |ts|
    requires Recent(q, window, ts[0]) == []
    ensures KeyRun(q, limit, window, ts)[i]
         == if i < limit then Verdict(true, 0) else Verdict(false, window - (ts[i] - ts[0]))
  {
    if i == 0 {
      BurstStart(q, limit, window, ts);
      BurstFirstVerdict(q, limit, window, ts);
    } else {
      BurstLaterVerdict(q, limit, window, ts, i);
    }
  }

  /** Verdict number `i > 0` of `BurstWithinWindow`. */
  lemma BurstLaterVerdict(q: seq<int>, limit: int, window: int, ts: seq<int>, i: nat)
    requires limit > 0 && WithinOneWindow(ts, window) && 0 < i < |ts|
    requires Recent(q, window, ts[0]) == []
    ensures KeyRun(q, limit, window, ts)[i]
         == if i < limit then Verdict(true, 0) else Verdict(false, window - (ts[i] - ts[0]))
  {
    var rest := KeyRun(ts[..Min(1, limit)], limit, window, ts[1..]);
    assert KeyRun(q, limit, window, ts)[i] == rest[i - 1] by {
      BurstStart(q, limit, window, ts);
      BurstTailFirst(q, limit, window, ts, i);
    }
    BurstFrom(limit, window, ts, 1, i - 1);
  }

  /** After the first call of a burst, the run continues from the burst state of the second. */
  lemma BurstTailFirst(q: seq<int>, limit: int, window: int, ts: seq<int>, i: nat)
    requires limit > 0 && 0 < i < |ts| && WithinOneWindow(ts, window)
    requires BurstState(q, limit, window, ts, 0)
    ensures KeyRun(q, limit, window, ts)[i] == KeyRun(ts[..Min(1, limit)], limit, window, ts[1..])[i - 1]
  {
    BurstStep(q, limit, window, ts, 0);
    assert Admit(q, limit, window, ts[0]).kept == ts[..Min(1, limit)];
    KeyRunShift(q, limit, window, ts, i);
  }

  /** The first call of a burst is admitted. */
  lemma BurstFirstVerdict(q: seq<int>, limit: int, window: int, ts: seq<int>)
    requires limit > 0 && WithinOneWindow(ts, window)
    requires BurstState(q, limit, window, ts, 0)
    ensures KeyRun(q, limit, window, ts)[0] == Verdict(true, 0)
  {
    BurstStep(q, limit, window, ts, 0);
    KeyRunFirst(q, limit, window, ts);
  }

  /** A key with no surviving history starts a burst. */
  lemma BurstStart(q: seq<int>, limit: int, window: int, ts: seq<int>)
    requires limit > 0 && |ts| > 0
    requires Recent(q, window, ts[0]) == []
    ensures BurstState(q, limit, window, ts, 0)
  {
    assert StaleCount(q, ts[0] - window) == |q|;
  }

  /** The four decisions of `ScenarioTwoPerTenSeconds`, one at a time. */
  lemma ScenarioSteps()
    ensures Admit([], 2, 10 * Second, 0) == KeyStep(Verdict(true, 0), [0])
    ensures Admit([0], 2, 10 * Second, Second) == KeyStep(Verdict(true, 0), [0, Second])
    ensures Admit([0, Second], 2, 10 * Second, 2 * Second) == KeyStep(Verdict(false, 8 * Second), [0, Second])
    ensures Admit([0, Second], 2, 10 * Second, 11 * Second) == KeyStep(Verdict(true, 0), [Second, 11 * Second])
  {
    PruneKeepsRecent([0], Second - 10 * Second);
    PruneKeepsRecent([0, Second], 2 * Second - 10 * Second);
    LongestStalePrefix([0, Second], 11 * Second - 10 * Second, 1);
  }

  /**
   A worked scenario: limit 2, window 10 s, key "X" calling at 0, 1, 2 and
   11 seconds is admitted, admitted, denied with 8 s to wait, and admitted.
   */
  lemma {:induction false} ScenarioTwoPerTenSeconds()
    ensures KeyRun([], 2, 10 * Second, [0, Second, 2 * Second, 11 * Second])
      == [Verdict(true, 0), Verdict(true, 0), Verdict(false, 8 * Second), Verdict(true, 0)]
  {
    var w := 10 * Second;
    ScenarioSteps();
    var r3 := KeyRun([0, Second], 2, w, [11 * Second]);
    KeyRunFirst([0, Second], 2, w, [11 * Second]);
    assert r3 == [Verdict(true, 0)];
    var r2 := KeyRun([0, Second], 2, w, [2 * Second, 11 * Second]);
    KeyRunFirst([0, Second], 2, w, [2 * Second, 11 * Second]);
    assert r2 == [Verdict(false, 8 * Second)] + r3;
    var r1 := KeyRun([0], 2, w, [Second, 2 * Second, 11 * Second]);
    KeyRunFirst([0], 2, w, [Second, 2 * Second, 11 * Second]);
    assert r1 == [Verdict(true, 0)] + r2;
    KeyRunFirst([], 2, w, [0, Second, 2 * Second, 11 * Second]);
    assert KeyRun([], 2, w, [0, Second, 2 * Second, 11 * Second]) == [Verdict(true, 0)] + r1;
  }

  /**
   Two calls for one key that reach the mutex in the opposite order of their
   clock readings (instant 5 s locks first, instant 0 locks second). With
   limit 1 and a 10 s window the second is told to wait 15 s, longer than the
   window; with limit 2 the stored history is no longer chronological.
   */
  lemma {:induction false} ClockReadBeforeLock()
    ensures Run(NewRateLimiter(1, 10 * Second), [Call("k", 5 * Second), Call("k", 0)]).0
         == [Verdict(true, 0), Verdict(false, 15 * Second)]
    ensures var hits := Run(NewRateLimiter(2, 10 * Second), [Call("k", 5 * Second), Call("k", 0)]).1.hits;
      "k" in hits && hits["k"] == [5 * Second, 0] && !Sorted(hits["k"])
  {
    var w := 10 * Second;
    var calls := [Call("k", 5 * Second), Call("k", 0)];
    assert calls[1..] == [Call("k", 0)] && calls[1..][1..] == [];
    PruneKeepsRecent([5 * Second], 0 - w);
    var one := Allow(NewRateLimiter(1, w), "k", 5 * Second);
    assert Lookup(NewRateLimiter(1, w).hits, "k") == [];
    assert one.verdict == Verdict(true, 0) && Lookup(one.next.hits, "k") == [5 * Second];
    assert Allow(one.next, "k", 0).verdict == Verdict(false, 15 * Second);
    var two := Allow(NewRateLimiter(2, w), "k", 5 * Second);
    assert Lookup(NewRateLimiter(2, w).hits, "k") == [];
    assert Lookup(two.next.hits, "k") == [5 * Second];
    var last := Allow(two.next, "k", 0).next;
    assert last.hits["k"] == [5 * Second, 0];
    assert Run(last, []).1 == last;
    assert Run(two.next, calls[1..]).1 == last;
    assert Run(NewRateLimiter(2, w), calls).1 == last;
    assert last.hits["k"][0] > last.hits["k"][1];
  }
}

=== FILE: window.dfy ===
/**
 Sequences of admission timestamps kept per client key, and the lazy
 pruning that `rateLimiter.allow` applies to them (main.go, lines 54-62).
 Instants and durations are Go `int64` nanosecond counts, modelled as `int`.
 */
module Window {

  /** Every timestamp is at or after each one stored before it. */
  predicate Sorted(q: seq<int>) {
    forall i, j | 0 <= i < j < |q| :: q[i] <= q[j]
  }

  /** No timestamp lies after `clock`. */
  predicate NotAfter(q: seq<int>, clock: int) {
    forall i | 0 <= i < |q| :: q[i] <= clock
  }

  /** Length of the longest prefix of `q` made of instants strictly before `cutoff`. */
  function StaleCount(q: seq<int>, cutoff: int): (n: nat)
    ensures n <= |q|
    ensures forall j | 0 <= j < n :: q[j] < cutoff
    ensures n == |q| || q[n] >= cutoff
  {
    if |q| == 0 || q[0] >= cutoff then 0 else 1 + StaleCount(q[1..], cutoff)
  }

  /** What is left of `q` once its stale prefix is dropped (main.go lines 60-62). */
  function Pruned(q: seq<int>, cutoff: int): seq<int> {
    q[StaleCount(q, cutoff)..]
  }

  /** The forward scan of main.go lines 56-59: it stops at the first instant not before `cutoff`. */
  method ScanStale(q: seq<int>, cutoff: int) returns (i: nat)
    ensures i <= |q|
    ensures forall j | 0 <= j < i :: q[j] < cutoff
    ensures i == |q| || q[i] >= cutoff
    ensures q[i..] == Pruned(q, cutoff)
  {
    i := 0;
    while i < |q| && q[i] < cutoff
      invariant i <= |q|
      invariant forall j | 0 <= j < i :: q[j] < cutoff
    {
      i := i + 1;
    }
    LongestStalePrefix(q, cutoff, i);
  }

  /** Any split point with a stale prefix and a non-stale next entry is the one `Pruned` uses. */
  lemma LongestStalePrefix(q: seq<int>, cutoff: int, n: nat)
    requires n <= |q|
    requires forall j | 0 <= j < n :: q[j] < cutoff
    requires n == |q| || q[n] >= cutoff
    ensures Pruned(q, cutoff) == q[n..]
  {
    var m := StaleCount(q, cutoff);
    assert m == n;
  }

  /** A sequence with no instant before `cutoff` is left untouched. */
  lemma PruneKeepsRecent(q: seq<int>, cutoff: int)
    requires forall j | 0 <= j < |q| :: q[j] >= cutoff
    ensures Pruned(q, cutoff) == q
  {
    LongestStalePrefix(q, cutoff, 0);
  }

  /**
   On a sorted sequence, pruning keeps exactly the instants at or after the
   cutoff: an entry equal to the cutoff survives and still counts.
   */
  lemma {:induction false} SortedPruneKeepsWindow(q: seq<int>, cutoff: int, t: int)
    requires Sorted(q)
    ensures t in Pruned(q, cutoff) <==> t in q && t >= cutoff
  {
    var p := Pruned(q, cutoff);
    var d := |q| - |p|;
    if t in p {
      var k :| 0 <= k < |p| && p[k] == t;
      assert q[d + k] == t;
      assert p[0] <= p[k] by { assert q[d] <= q[d + k]; }
    }
    if t in q && t >= cutoff {
      var k :| 0 <= k < |q| && q[k] == t;
      assert k >= d;
      assert p[k - d] == t;
    }
  }

  /** Pruning keeps a sequence sorted and no later than any bound it had. */
  lemma PrunedWellFormed(q: seq<int>, cutoff: int, clock: int)
    requires Sorted(q) && NotAfter(q, clock)
    ensures Sorted(Pruned(q, cutoff)) && NotAfter(Pruned(q, cutoff), clock)
  {
    var p := Pruned(q, cutoff);
    var d := |q| - |p|;
    forall i, j | 0 <= i < j < |p|
      ensures p[i] <= p[j]
    {
      assert p[i] == q[d + i] && p[j] == q[d + j];
    }
    forall i | 0 <= i < |p|
      ensures p[i] <= clock
    {
      assert p[i] == q[d + i];
    }
  }

  /** Appending an instant no earlier than every stored one keeps the sequence sorted. */
  lemma AppendWellFormed(q: seq<int>, clock: int, now: int)
    requires Sorted(q) && NotAfter(q, clock) && clock <= now
    ensures Sorted(q + [now]) && NotAfter(q + [now], now)
  {
  }
}

=== FILE: wrappers.dfy ===
/** Optional values, used for the error paths of the model. */
module Wrappers {

  /** `None` marks an absent value or an operation that did not complete. */
  datatype Option<+T> = None | Some(value: T)
}
